=== FILE: README.md ===
# Guitar chord progression generator: the music-theory core in Dafny

This project models the pure music-theory pipeline of the chord progression generator
(`main_3.py`). There are two halves:

- **Progression side.** A roman-numeral degree such as `"vi"` or `"V7"` is resolved against a
  key using the diatonic table and the numeral table (`roman_to_chord`). A style pattern is
  then read cyclically until the requested number of bars is filled (`generate_progression`).
- **Voicing side.** A chord name such as `"F#m"` is split into root and quality
  (`parse_chord_name`). It is then turned into MIDI pitches (`chord_to_midi_notes`): root
  lookup, quality intervals chosen by substring tests, inversion by rotation, and clamping
  into 0..127.

Modules:

- `Results` (`results.dfy`): `Result` and the two faults the source raises.
- `Text` (`text.dfy`): Python's `in`, `replace` and `endswith` over `seq<char>`.
- `ChordTables` (`tables.dfy`): `DIATONIC_MAJOR`, `COMMON_PATTERNS`, `ROMAN_TO_INDEX`,
  `NOTE_TO_MIDI`, and the `.get(..., default)` lookups over them.
- `Progression` (`progression.dfy`): `roman_to_chord` and `generate_progression`.
- `Voicing` (`voicing.dfy`): `parse_chord_name` and `chord_to_midi_notes`.
- `Pipeline` (`pipeline.dfy`): every chord the progression side produces voices without fault.

Modelling decisions:

- `random.choice(patterns)` becomes an argument. `GenerateProgression` takes the chosen
  pattern and requires it to be one of the style's patterns, which is what `random.choice`
  guarantees. `RenderPattern` is the loop on its own, for any pattern. It reports the
  `ZeroDivisionError` an empty pattern would raise as `Err(EmptyPattern)`.
- `parse_chord_name("")` raises `IndexError`, and `chord_to_midi_notes("")` with it. Both
  are modelled as `Err(EmptyChordName)`.
- `chord_to_midi_notes` takes the shift in semitones. Its callers pass `octave_var*12`
  (main_3.py:419, 488), so `ChordToMidiNotes` takes semitones too.
- The minor-triad test at main_3.py:132 also excludes qualities containing `"maj"`.
- Three quirks are kept as written and proved as lemmas:
  - `"vii°"` loses its `°`, misses the table and resolves to the tonic.
  - `"dim"` contains `'m'`, so it is voiced as a minor triad, and `"dim7"` as a minor seventh.
  - `"Cb"` and `"E#"` are not in the note table, so they are voiced on middle C. Both occur
    as table chords (`Gb` row, `F#` row).
- `generate_progression` returns an empty list for a bar count of zero or less, since
  its `while` loop never runs. The model keeps that (`BarCount`).
- Python's one-character substring test (`'m' in ctype`) is sequence membership. The
  three-character test `'maj' in ctype` uses `Text.Contains`, which is proved equal to
  "occurs at some position".

## Model

| member | source | states |
|---|---|---|
| Text.Contains | main_3.py:132-135 | Python's `sub in s` holds exactly when `sub` occurs at some position of `s` |
| Text.ContainsSingle | main_3.py:132 | for a one-character pattern, Python's substring test is plain membership, which is how the model writes `'m' in ctype` |
| Text.EndsWith | main_3.py:92 | `s.endswith(c)` holds exactly when `s` is some string followed by `c` |
| Text.RemoveAll | main_3.py:91 | `replace('°','')` leaves no degree sign, keeps every other character's count, and changes nothing when there was no sign |
| ChordTables.DiatonicTableWellFormed | main_3.py:28-41 | every key's row has 7 non-empty chords, none containing '7', and degree I of each row is the key itself |
| ChordTables.DiatonicRow | main_3.py:96 | the row used is the key's `DIATONIC_MAJOR` row, or the C row for an unknown key; it is indexable at degrees 0..6 and its tonic is the key, or "C" |
| ChordTables.RomanTableInRange | main_3.py:56 | every numeral maps to a degree in 0..6 |
| ChordTables.DegreeIndex | main_3.py:95 | the looked-up degree is always in 0..6, and 0 for a numeral the table lacks |
| ChordTables.StylePatterns | main_3.py:43-48 | every style, known or not, offers at least one pattern, and every pattern is non-empty; a known style offers its own table patterns |
| ChordTables.UnknownStyleIsPop | main_3.py:107 | a style missing from the table offers exactly Pop's patterns |
| ChordTables.NoteTableIsSpelling | main_3.py:58-62 | a root is in the note table iff it is a letter, a sharp other than E#/B#, or a flat other than Cb/Fb; its value is 60 plus the letter's semitone moved by the accidental |
| ChordTables.RootPitch | main_3.py:129 | the root pitch is 60 + spelled semitone + octave for a spelled root, else 60 + octave |
| ChordTables.EnharmonicRootsAgree | main_3.py:58-62 | a sharp and a flat that spell one pitch give equal root pitches |
| Progression.ParseRoman | main_3.py:91-94 | the lookup token has no degree sign; token plus "7" (when flagged) rebuilds the sign-free numeral, and the flag is set iff that numeral ends in '7' |
| Progression.RomanToChord | main_3.py:88-103 | the resolved chord name is never empty |
| Progression.ResolvesToRowChord | main_3.py:95-103 | the chord is a chord of the key's row, with "7" appended exactly when flagged; an unknown key gives the same chord as "C" |
| Progression.KnownNumeralDegree | main_3.py:95-103 | a numeral the table knows resolves to the row entry at the table's degree, plus "7" when flagged |
| Progression.PrimaryDegrees | main_3.py:56 | in every key, "I", "IV" and "V" resolve to degrees I, IV and V of the row |
| Progression.DominantSeventh | main_3.py:92-100 | in every key, "V7" resolves to degree V of the row with "7" appended |
| Progression.SeventhFlagIsVisible | main_3.py:98-103 | the chord ends in '7' iff the numeral requested a seventh, whether the base chord is minor or not |
| Progression.UnknownNumeralIsTonic | main_3.py:95 | a numeral missing from the table resolves to the tonic, named after the key (or "C") |
| Progression.DiminishedEntryUnreachable | main_3.py:56 | no numeral can reach the table's "vii°" entry, because the sign is removed first |
| Progression.DiminishedNumeralFallsToTonic | main_3.py:91-95 | "vii°" resolves to degree I, not degree vii |
| Progression.UpperSeventhDegree | main_3.py:56 | "VII" resolves to degree vii of the row |
| Progression.SecondDegreeAliases | main_3.py:56 | "ii" and "II" both resolve to degree ii |
| Progression.ThirdDegreeAliases | main_3.py:56 | "iii" and "III" both resolve to degree iii |
| Progression.SixthDegreeAliases | main_3.py:56 | "vi" and "VI" both resolve to degree vi |
| Progression.MinorSpellingsAreTonic | main_3.py:95 | "i", "iv" and "v" are absent from the table and resolve to the tonic |
| Progression.BarCount | main_3.py:111 | the number of chords the loop produces is the least natural number that is at least `bars`: `bars` itself, or 0 when `bars` is negative |
| Progression.CycleFill | main_3.py:109-114 | for any resolver: faults iff the pattern is empty and bars > 0; otherwise exactly max(bars,0) entries, entry i being the resolved pattern entry i mod its length |
| Progression.RenderPattern | main_3.py:109-114 | faults iff the pattern is empty and bars > 0; otherwise returns max(bars,0) chords, chord i being the pattern's entry i mod its length, resolved |
| Progression.GenerateProgression | main_3.py:106-114 | for a pattern of the style (or of Pop), exactly max(bars,0) chords, chord i resolved from pattern[i mod len] |
| Progression.PopInC | main_3.py:43-44 | the Pop pattern I-V-vi-IV in C gives C, G, Am, F |
| Voicing.ParseChordName | main_3.py:117-124 | faults iff the name is empty; root + quality == name; the root has 2 characters iff the name's second character is '#' or 'b', else 1 |
| Voicing.ParseJoinRoundTrip | main_3.py:117-124 | parsing root + quality gives back exactly (root, quality) iff the pair is separable |
| Voicing.Intervals | main_3.py:132-142 | 4 intervals iff the quality has a '7', else 3; root 0; third 3 iff 'm', no "maj" and not both '7' and 'M', else 4; fifth 7; seventh 11 with "maj" or 'M', else 10; ascending within an octave |
| Voicing.MinorThird | main_3.py:132-138 | the third is minor iff the quality has 'm', no "maj", and not both '7' and 'M'; otherwise it is major |
| Voicing.MajorSeventh | main_3.py:134-136 | the seventh is major iff the quality has '7' and "maj" or 'M' |
| Voicing.MajContainsM | main_3.py:132 | any quality containing "maj" also contains 'm', so the "maj" exclusion in the minor-triad test only matters when 'm' is present (see `MinorThird`) |
| Voicing.DiminishedIsMinorTriad | main_3.py:132-133 | "dim" is voiced with intervals 0, 3, 7 |
| Voicing.DiminishedSeventhIsMinorSeventh | main_3.py:134-138 | "dim7" is voiced with intervals 0, 3, 7, 10 |
| Voicing.MajWithoutSeventhIsMajorTriad | main_3.py:141-142 | "maj" without a '7' is voiced as a major triad |
| Voicing.CapitalMSeventhIsMajorSeventh | main_3.py:135-136 | "M7" is voiced with intervals 0, 4, 7, 11 |
| Voicing.RotateUp | main_3.py:145-147 | one step keeps the count and ends with the old first pitch raised 12 |
| Voicing.RotateUpPermutes | main_3.py:145-147 | one step keeps every pitch but the first, and replaces the first with the same pitch 12 higher |
| Voicing.Invert | main_3.py:144-147 | inversion never changes the number of notes |
| Voicing.NonPositiveInversionIsIdentity | main_3.py:144 | an inversion count of zero or less leaves the notes unchanged |
| Voicing.InvertAdditive | main_3.py:144-147 | a + b steps equal a steps followed by b steps |
| Voicing.InvertStep | main_3.py:145-147 | each step removes the lowest note and appends it 12 higher |
| Voicing.InvertPrefix | main_3.py:144-147 | after j steps (j at most the note count) the first j notes sit on top, each 12 higher |
| Voicing.InvertFullCycle | main_3.py:144-147 | as many steps as notes gives every original pitch plus 12, in the original order |
| Voicing.InvertTranspose | main_3.py:144-147 | inverting commutes with transposing |
| Voicing.InvertPeriodic | main_3.py:144-147 | note-count more steps give the same voicing an octave higher |
| Voicing.RotateUpKeepsClose | main_3.py:145-147 | one step keeps an ascending voicing that spans under an octave ascending and under an octave |
| Voicing.InvertKeepsClose | main_3.py:144-147 | any number of steps keeps such a voicing strictly ascending |
| Voicing.Clamp | main_3.py:149 | the result is in 0..127, equals the input when it is in range, and is 0 or 127 otherwise |
| Voicing.ClampAll | main_3.py:149 | same count; each pitch is the clamp of the pitch at the same position; all in range; unchanged iff already in range; order kept |
| Voicing.Unclamped | main_3.py:128-147 | before clamping: 4 notes iff the quality has '7', else 3; the lowest is the root pitch in root position; after one inversion the root pitch plus 12 is on top |
| Voicing.ChordToMidiNotes | main_3.py:127-150 | faults iff the name is empty; otherwise 4 notes iff the quality has '7', else 3, all in 0..127 |
| Voicing.OctaveShiftTransposes | main_3.py:129 | adding d to the semitone offset shifts every unclamped pitch by d, at any inversion |
| Voicing.UnclampedIsClose | main_3.py:131-147 | before clamping, every voicing ascends strictly and spans under an octave |
| Voicing.VoicingAscends | main_3.py:144-149 | returned pitches never descend, and ascend strictly when no clamping was needed |
| Voicing.RootPositionVoicing | main_3.py:128-142 | in root position and away from the range edges, the notes are the root pitch plus the quality's intervals |
| Voicing.InvertedVoicing | main_3.py:128-150 | for an inversion from 0 to the note count, the output is the root-position notes from that index on, then the notes before it an octave up, clamped after the rotation |
| Voicing.WrappedInversion | main_3.py:143-147 | before clamping, an inversion at or beyond the note count voices like the count minus the note count, one octave higher |
| Voicing.WrappedVoicing | main_3.py:127-150 | the returned notes for an inversion at or beyond the note count equal those for the count minus the note count with the shift raised 12, clamp included |
| Voicing.WorkedMinorTriad | main_3.py:127-150 | "Am" in root position gives 69, 72, 76 |
| Voicing.WorkedFirstInversion | main_3.py:127-150 | "C" in first inversion gives 64, 67, 72 |
| Voicing.WorkedSecondInversion | main_3.py:127-150 | "C" in second inversion gives 67, 72, 76 |
| Voicing.HighFirstInversionClamps | main_3.py:127-150 | "C" shifted 72 semitones in first inversion lies above 127 and clamps to 127, 127, 127 |
| Voicing.WorkedClampedWrap | main_3.py:143-150 | "C" shifted 60 semitones in a fourth inversion keeps rotating, then clamps to 127, 127, 127 |
| Voicing.FlatCIsMiddleC | main_3.py:129 | "Cb" is missing from the note table and gives 60, 64, 67 |
| Voicing.SharpEDiminishedIsCMinor | main_3.py:129-133 | "E#dim" gives 60, 63, 67: unknown root on middle C, diminished voiced as minor |
| Voicing.BDiminishedIsBMinor | main_3.py:132-133 | "Bdim" gives 71, 74, 78, a minor triad |
| Pipeline.AppendedSeventhInQuality | main_3.py:117-124 | for a non-empty name without '7', the parsed quality has a '7' iff one was appended |
| Pipeline.ResolvedQualityHasSeventh | main_3.py:88-124 | the quality parsed off a resolved chord has a '7' iff the numeral requested a seventh |
| Pipeline.ResolvedChordsVoice | main_3.py:88-150 | every resolved numeral voices without fault, with 4 notes iff it requested a seventh |
| Pipeline.AppendedSeventhKeepsRoot | main_3.py:117-124 | appending "7" to a non-empty name never changes the parsed root |
| Pipeline.ResolvedRootIsTableRoot | main_3.py:97-124 | the root of a resolved chord is the root of the table chord it came from |

## Left out

- The graphical interface (`ChordApp`, button highlighting, dialogs, status text): presentation only.
- Settings and export (`load_settings`, `save_settings`, `on_save`, `export_txt`): JSON and file I/O.
- `MidiManager` and the shared `MIDI` instance: a lock-guarded wrapper over the `pygame.midi` device, whose code is not part of this model.
- `play_progression_loop`, `safe_play_chord`, `on_play`, `on_stop`: threads, cancellation events, sleeps and `random.uniform` timing jitter. The playback session state machine belongs here too.
- `random.choice` at main_3.py:108: the chosen pattern is an argument of `GenerateProgression`.
- `CHORD_SHAPES`: display text only.
- Python's dynamic typing: arguments are assumed to be the string and integer types the callers pass.
- Progression.RomanToChord: its own contract states only that the chord is non-empty. The exact chord is given by `KnownNumeralDegree` for numerals in the table and by `UnknownNumeralIsTonic` for the rest.
- Voicing.ChordToMidiNotes: its own contract states the fault, the note count and the range. The exact pitches are given by `RootPositionVoicing`, by `InvertedVoicing` for inversions up to the note count, and by `WrappedVoicing` for larger ones.
- Default arguments: `bars=4` (main_3.py:106) and `octave=0, inversion=0` (main_3.py:127) are dropped. Every call site passes all of them (main_3.py:399, 419, 488).

=== FILE: pipeline.dfy ===
/** How the two halves meet: every chord the progression side can produce is one the voicing
    side accepts. */
module Pipeline {
  import opened Results
  import opened Text
  import opened ChordTables
  import opened Progression
  import opened Voicing

  /** For a non-empty chord name without a '7', the parsed quality has a '7' exactly when
      one is appended. */
  lemma AppendedSeventhInQuality(base: string, seventh: bool)
    requires |base| > 0 && '7' !in base
    ensures ('7' in ParseChordName(base + (if seventh then "7" else "")).value.quality) <==> seventh
  {
    var chord := base + (if seventh then "7" else "");
    var c := ParseChordName(chord).value;
    assert c.root + c.quality == chord;
    if seventh {
      assert |c.root| <= |base|;
      assert c.quality[|c.quality| - 1] == chord[|chord| - 1] == '7';
    } else {
      assert chord == base;
      forall i | 0 <= i < |c.quality| ensures c.quality[i] != '7' {
        assert c.quality[i] == base[|c.root| + i];
      }
    }
  }

  /** The quality the parser reads off a resolved chord has a '7' exactly when the numeral
      asked for a seventh. */
  lemma ResolvedQualityHasSeventh(roman: string, key: string)
    ensures ('7' in ParseChordName(RomanToChord(roman, key)).value.quality) <==> ParseRoman(roman).seventh
  {
    var d := ParseRoman(roman);
    var base := DiatonicRow(key)[DegreeIndex(d.token)];
    assert RomanToChord(roman, key) == base + (if d.seventh then "7" else "");
    AppendedSeventhInQuality(base, d.seventh);
  }

  /** A resolved numeral always voices without fault, and the voicing has four notes exactly
      when the numeral asked for a seventh. */
  lemma ResolvedChordsVoice(roman: string, key: string, octave: int, inversion: int)
    ensures ChordToMidiNotes(RomanToChord(roman, key), octave, inversion).Ok?
    ensures (|ChordToMidiNotes(RomanToChord(roman, key), octave, inversion).value| == 4) <==>
            ParseRoman(roman).seventh
  {
    ResolvedQualityHasSeventh(roman, key);
  }

  /** Appending "7" to a non-empty chord name keeps the root the parser reads off it. */
  lemma AppendedSeventhKeepsRoot(base: string)
    requires |base| > 0
    ensures ParseChordName(base + "7").value.root == ParseChordName(base).value.root
  {
    var chord := base + "7";
    assert chord[0] == base[0];
    if |base| >= 2 {
      assert chord[1] == base[1];
      assert chord[..2] == base[..2];
    } else {
      assert chord[1] == '7';
      assert chord[..1] == base[..1];
    }
  }

  /** The root of a resolved chord is the root of the table chord it came from. */
  lemma ResolvedRootIsTableRoot(roman: string, key: string)
    ensures var base := DiatonicRow(key)[DegreeIndex(ParseRoman(roman).token)];
            ParseChordName(RomanToChord(roman, key)).value.root == ParseChordName(base).value.root
  {
    var d := ParseRoman(roman);
    var base := DiatonicRow(key)[DegreeIndex(d.token)];
    if d.seventh {
      assert RomanToChord(roman, key) == base + "7";
      AppendedSeventhKeepsRoot(base);
    } else {
      assert RomanToChord(roman, key) == base;
    }
  }
}

=== FILE: progression.dfy ===
/** Resolving roman-numeral degrees against a key, and rendering a style pattern into bars. */
module Progression {
  import opened Results
  import opened Text
  import opened ChordTables

  /** A numeral token ready for table lookup, and whether a seventh was requested. */
  datatype DegreeToken = DegreeToken(token: string, seventh: bool)

  /** Remove every degree sign, then strip one trailing "7" and remember that it was there. */
  function ParseRoman(roman: string): (d: DegreeToken)
    ensures DegreeSign !in d.token
    ensures d.token + (if d.seventh then "7" else "") == RemoveAll(roman, DegreeSign)
    ensures d.seventh <==> EndsWith(RemoveAll(roman, DegreeSign), '7')
  {
    var plain := RemoveAll(roman, DegreeSign);
    if EndsWith(plain, '7') then
      assert plain[..|plain| - 1] + "7" == plain;
      DegreeToken(plain[..|plain| - 1], true)
    else DegreeToken(plain, false)
  }

  /** `roman_to_chord`: the key's diatonic chord at the numeral's degree, with "7" appended
      when the numeral carried one. Unknown keys use the C row, unknown numerals the tonic. */
  function RomanToChord(roman: string, key: string): (chord: string)
    ensures |chord| > 0
  {
    var d := ParseRoman(roman);
    var idx := DegreeIndex(d.token);
    var base := DiatonicRow(key)[idx];
    if d.seventh then base + "7" else base
  }

  /** The resolved chord ends in "7" exactly when the numeral asked for a seventh: no table
      chord ends in "7" on its own, and the quality of the base chord is not consulted. */
  lemma SeventhFlagIsVisible(roman: string, key: string)
    ensures EndsWith(RomanToChord(roman, key), '7') <==> ParseRoman(roman).seventh
  {
    var d := ParseRoman(roman);
    var base := DiatonicRow(key)[DegreeIndex(d.token)];
    assert base[|base| - 1] in base;
    if d.seventh {
      assert RomanToChord(roman, key) == base + "7";
    } else {
      assert RomanToChord(roman, key) == base;
    }
  }

  /** The chord is a chord of the key's row (the C row for an unknown key), with "7"
      appended exactly when the numeral carried one. */
  lemma ResolvesToRowChord(roman: string, key: string)
    ensures var chord := RomanToChord(roman, key);
            if ParseRoman(roman).seventh
            then EndsWith(chord, '7') && chord[..|chord| - 1] in DiatonicRow(key)
            else chord in DiatonicRow(key)
    ensures key !in DiatonicMajor ==> RomanToChord(roman, key) == RomanToChord(roman, DefaultKey)
  {
    var d := ParseRoman(roman);
    var base := DiatonicRow(key)[DegreeIndex(d.token)];
    if d.seventh {
      assert RomanToChord(roman, key) == base + "7";
      assert (base + "7")[..|base|] == base;
    }
  }

  /** A numeral the table does not know resolves to the tonic chord, which is named after
      the key itself when the key is in the table. */
  lemma UnknownNumeralIsTonic(roman: string, key: string)
    requires ParseRoman(roman).token !in RomanToIndex
    ensures RomanToChord(roman, key) ==
              (if key in DiatonicMajor then key else DefaultKey) + (if ParseRoman(roman).seventh then "7" else "")
  {
  }

  /** A numeral the table knows resolves to the row entry at the table's degree, with "7"
      appended when the numeral carried one. With `UnknownNumeralIsTonic` this covers both
      outcomes of the `.get(token, 0)` lookup. */
  lemma KnownNumeralDegree(roman: string, key: string)
    requires ParseRoman(roman).token in RomanToIndex
    ensures 0 <= RomanToIndex[ParseRoman(roman).token] < 7
    ensures RomanToChord(roman, key) ==
              DiatonicRow(key)[RomanToIndex[ParseRoman(roman).token]] + (if ParseRoman(roman).seventh then "7" else "")
  {
    RomanTableInRange();
  }

  /** The primary degrees resolve in every key: "I", "IV" and "V" to degrees 0, 3 and 4, and
      "V7" to degree 4 with a seventh appended. */
  lemma PrimaryDegrees(key: string)
    ensures RomanToChord("I", key) == DiatonicRow(key)[0]
    ensures RomanToChord("IV", key) == DiatonicRow(key)[3]
    ensures RomanToChord("V", key) == DiatonicRow(key)[4]
  {
    PlainNumeral("I");
    PlainNumeral("IV");
    PlainNumeral("V");
    assert DegreeIndex("I") == 0 && DegreeIndex("IV") == 3 && DegreeIndex("V") == 4;
  }

  /** "V7" is the dominant seventh of the key: degree 4 with "7" appended. */
  lemma DominantSeventh(key: string)
    ensures RomanToChord("V7", key) == DiatonicRow(key)[4] + "7"
  {
    assert RemoveAll("V7", DegreeSign) == "V7";
    assert ParseRoman("V7") == DegreeToken("V", true);
    assert "V7"[..1] == "V";
    KnownNumeralDegree("V7", key);
  }

  /** The degree sign never reaches the lookup, so the numeral table's own "vii°" entry
      can never be selected. */
  lemma DiminishedEntryUnreachable(roman: string)
    ensures ParseRoman(roman).token != "vii" + [DegreeSign]
  {
    assert ("vii" + [DegreeSign])[3] == DegreeSign;
  }

  /** "vii°" loses its degree sign, misses the table as "vii" and resolves to the tonic. */
  lemma DiminishedNumeralFallsToTonic(key: string)
    ensures RomanToChord("vii" + [DegreeSign], key) == DiatonicRow(key)[0]
  {
    RemoveAllAppend("vii", [DegreeSign], DegreeSign);
    assert RemoveAll("vii" + [DegreeSign], DegreeSign) == "vii";
    assert ParseRoman("vii" + [DegreeSign]).token == "vii";
    assert "vii" !in RomanToIndex;
  }

  /** The upper-case "VII" is the spelling that reaches the seventh degree. */
  lemma UpperSeventhDegree(key: string)
    ensures RomanToChord("VII", key) == DiatonicRow(key)[6]
  {
    assert RemoveAll("VII", DegreeSign) == "VII";
  }

  /** A plain numeral (no degree sign, no trailing "7") is looked up as written. */
  lemma PlainNumeral(roman: string)
    requires DegreeSign !in roman && !EndsWith(roman, '7')
    ensures ParseRoman(roman) == DegreeToken(roman, false)
  {
  }

  /** Lower- and upper-case spellings of degree ii name the same chord. */
  lemma SecondDegreeAliases(key: string)
    ensures RomanToChord("ii", key) == RomanToChord("II", key) == DiatonicRow(key)[1]
  {
    PlainNumeral("ii");
    PlainNumeral("II");
    assert DegreeIndex("ii") == DegreeIndex("II") == 1;
  }

  /** Lower- and upper-case spellings of degree iii name the same chord. */
  lemma ThirdDegreeAliases(key: string)
    ensures RomanToChord("iii", key) == RomanToChord("III", key) == DiatonicRow(key)[2]
  {
    PlainNumeral("iii");
    PlainNumeral("III");
    assert DegreeIndex("iii") == DegreeIndex("III") == 2;
  }

  /** Lower- and upper-case spellings of degree vi name the same chord. */
  lemma SixthDegreeAliases(key: string)
    ensures RomanToChord("vi", key) == RomanToChord("VI", key) == DiatonicRow(key)[5]
  {
    PlainNumeral("vi");
    PlainNumeral("VI");
    assert DegreeIndex("vi") == DegreeIndex("VI") == 5;
  }

  /** Minor-key spellings "i", "iv" and "v" are not in the numeral table and give the tonic. */
  lemma MinorSpellingsAreTonic(key: string)
    ensures RomanToChord("i", key) == DiatonicRow(key)[0]
    ensures RomanToChord("iv", key) == DiatonicRow(key)[0]
    ensures RomanToChord("v", key) == DiatonicRow(key)[0]
  {
    PlainNumeral("i");
    PlainNumeral("iv");
    PlainNumeral("v");
    assert DegreeIndex("i") == DegreeIndex("iv") == DegreeIndex("v") == 0;
  }

  /** The number of chords a progression of `bars` bars has: none for a non-positive count. */
  function BarCount(bars: int): (n: nat)
    ensures n >= bars
    ensures n == 0 || n == bars
  {
    if bars < 0 then 0 else bars
  }

  /** Entry `j` of `pattern` read cyclically. */
  function Cyclic<T>(pattern: seq<T>, j: nat): T
    requires |pattern| > 0
  {
    pattern[j % |pattern|]
  }

  /** The loop of `generate_progression`, for any way of resolving a pattern entry: append
      `resolve(pattern[i % len(pattern)])` while fewer than `bars` entries are present. An empty
      pattern faults on the first `i % len(pattern)`. */
  method CycleFill<T>(pattern: seq<string>, bars: int, resolve: string -> T) returns (r: Result<seq<T>>)
    ensures r.Err? <==> pattern == [] && bars > 0
    ensures r.Err? ==> r.fault == EmptyPattern
    ensures r.Ok? ==> |r.value| == BarCount(bars)
    ensures r.Ok? ==> forall i :: 0 <= i < |r.value| ==>
              |pattern| > 0 && r.value[i] == resolve(Cyclic(pattern, i))
  {
    var prog: seq<T> := [];
    var i := 0;
    while |prog| < bars
      invariant i == |prog| <= BarCount(bars)
      invariant |prog| > 0 ==> |pattern| > 0
      invariant forall j :: 0 <= j < |prog| ==>
                  |pattern| > 0 && prog[j] == resolve(Cyclic(pattern, j))
      decreases bars - |prog|
    {
      if |pattern| == 0 {
        return Err(EmptyPattern);
      }
      prog := prog + [resolve(pattern[i % |pattern|])];
      i := i + 1;
    }
    return Ok(prog);
  }

  /** `generate_progression` once a pattern has been chosen: `bars` chords (none for a
      non-positive count), chord `i` being pattern entry `i mod len(pattern)` resolved in `key`. */
  method RenderPattern(key: string, pattern: seq<string>, bars: int) returns (r: Result<seq<string>>)
    ensures r.Err? <==> pattern == [] && bars > 0
    ensures r.Err? ==> r.fault == EmptyPattern
    ensures r.Ok? ==> |r.value| == BarCount(bars)
    ensures r.Ok? ==> forall i :: 0 <= i < |r.value| ==>
              |pattern| > 0 && r.value[i] == RomanToChord(pattern[i % |pattern|], key)
  {
    r := CycleFill(pattern, bars, roman => RomanToChord(roman, key));
  }

  /** `generate_progression(key, style, bars)` with the random pick made by the caller:
      `pattern` is one of the style's patterns (the default style's when the style is unknown). */
  method GenerateProgression(key: string, style: string, pattern: seq<string>, bars: int)
    returns (prog: seq<string>)
    requires pattern in StylePatterns(style)
    ensures |prog| == BarCount(bars)
    ensures forall i :: 0 <= i < |prog| ==> prog[i] == RomanToChord(pattern[i % |pattern|], key)
  {
    var r := RenderPattern(key, pattern, bars);
    prog := r.value;
  }

  /** The pop pattern I-V-vi-IV in C gives C, G, Am, F. */
  lemma PopInC()
    ensures RomanToChord("I", "C") == "C"
    ensures RomanToChord("V", "C") == "G"
    ensures RomanToChord("vi", "C") == "Am"
    ensures RomanToChord("IV", "C") == "F"
  {
    assert RemoveAll("I", DegreeSign) == "I";
    assert RemoveAll("V", DegreeSign) == "V";
    assert RemoveAll("vi", DegreeSign) == "vi";
    assert RemoveAll("IV", DegreeSign) == "IV";
  }
}

=== FILE: results.dfy ===
/** The two ways the chord code raises instead of returning a value. */
module Results {

  /** Why an operation produced no value. */
  datatype Fault =
    | EmptyChordName   // `chord_name[0]` on "" raises IndexError
    | EmptyPattern     // `i % len(pattern)` on [] raises ZeroDivisionError

  /** A value, or the fault that stopped the computation. */
  datatype Result<+T> = Ok(value: T) | Err(fault: Fault)
}

=== FILE: tables.dfy ===
/** The constant music-theory tables of the chord generator and the lookups over them. */
module ChordTables {

  /** The degree sign that marks a diminished numeral such as "vii°". */
  const DegreeSign: char := '\U{00B0}'

  /** Key used when the requested key has no row. */
  const DefaultKey: string := "C"

  /** Style used when the requested style has no patterns. */
  const DefaultStyle: string := "Pop"

  /** Pitch used for a root name the note table does not know (middle C). */
  const DefaultRootPitch: int := 60

  /** Key -> the seven diatonic chords of its major scale, degrees I to vii. */
  const DiatonicMajor: map<string, seq<string>> := map[
    "C"  := ["C", "Dm", "Em", "F", "G", "Am", "Bdim"],
    "G"  := ["G", "Am", "Bm", "C", "D", "Em", "F#dim"],
    "D"  := ["D", "Em", "F#m", "G", "A", "Bm", "C#dim"],
    "A"  := ["A", "Bm", "C#m", "D", "E", "F#m", "G#dim"],
    "E"  := ["E", "F#m", "G#m", "A", "B", "C#m", "D#dim"],
    "B"  := ["B", "C#m", "D#m", "E", "F#", "G#m", "A#dim"],
    "F#" := ["F#", "G#m", "A#m", "B", "C#", "D#m", "E#dim"],
    "Gb" := ["Gb", "Abm", "Bbm", "Cb", "Db", "Ebm", "Fdim"],
    "F"  := ["F", "Gm", "Am", "Bb", "C", "Dm", "Edim"],
    "Bb" := ["Bb", "Cm", "Dm", "Eb", "F", "Gm", "Adim"],
    "Eb" := ["Eb", "Fm", "Gm", "Ab", "Bb", "Cm", "Ddim"],
    "Ab" := ["Ab", "Bbm", "Cm", "Db", "Eb", "Fm", "Gdim"]
  ]

  /** Style -> its roman-numeral patterns. */
  const CommonPatterns: map<string, seq<seq<string>>> := map[
    "Pop"    := [["I", "V", "vi", "IV"], ["I", "vi", "IV", "V"], ["vi", "IV", "I", "V"]],
    "Rock"   := [["I", "IV", "V", "IV"], ["I", "V", "I", "V"]],
    "Ballad" := [["I", "vi", "IV", "V"], ["I", "V", "vi", "IV"]],
    "Blues"  := [["I", "IV", "I", "V"], ["I", "I", "IV", "I", "V", "IV", "I", "V"]]
  ]

  /** Roman numeral -> scale-degree index. Upper- and lower-case spellings alias one degree. */
  const RomanToIndex: map<string, int> := map[
    "I" := 0, "ii" := 1, "II" := 1, "iii" := 2, "III" := 2, "IV" := 3,
    "V" := 4, "vi" := 5, "VI" := 5, "vii" + [DegreeSign] := 6, "VII" := 6
  ]

  /** Root name -> MIDI pitch in the octave starting at middle C. */
  const NoteToMidi: map<string, int> := map[
    "C" := 60, "C#" := 61, "Db" := 61, "D" := 62, "D#" := 63, "Eb" := 63,
    "E" := 64, "F" := 65, "F#" := 66, "Gb" := 66, "G" := 67, "G#" := 68, "Ab" := 68,
    "A" := 69, "A#" := 70, "Bb" := 70, "B" := 71
  ]

  /** A row the chord lookup can index at every degree: seven non-empty chord names, none
      of which already carries a '7'. */
  predicate WellFormedRow(row: seq<string>) {
    |row| == 7 && forall i :: 0 <= i < 7 ==> |row[i]| > 0 && '7' !in row[i]
  }

  /** No chord in a row carries a '7', checked one row at a time. */
  lemma {:induction false} RowSevenFree(k: string)
    requires k in DiatonicMajor
    ensures forall i :: 0 <= i < |DiatonicMajor[k]| ==> '7' !in DiatonicMajor[k][i]
  {
    var row := DiatonicMajor[k];
    forall i | 0 <= i < |row| ensures '7' !in row[i] {
      var chord := row[i];
      forall j | 0 <= j < |chord| ensures chord[j] != '7' {
        assert chord[j] in "ABCDEFG#bmdi";
      }
    }
  }

  /** Every row of the table can be indexed at degrees 0..6, and each row starts with its key. */
  lemma DiatonicTableWellFormed()
    ensures forall k :: k in DiatonicMajor ==> WellFormedRow(DiatonicMajor[k])
    ensures forall k :: k in DiatonicMajor ==> DiatonicMajor[k][0] == k
  {
    forall k | k in DiatonicMajor ensures WellFormedRow(DiatonicMajor[k]) {
      RowSevenFree(k);
    }
  }

  /** `DIATONIC_MAJOR.get(key, DIATONIC_MAJOR['C'])`. */
  function DiatonicRow(key: string): (row: seq<string>)
    ensures WellFormedRow(row)
    ensures row[0] == (if key in DiatonicMajor then key else DefaultKey)
    ensures row == (if key in DiatonicMajor then DiatonicMajor[key] else DiatonicMajor[DefaultKey])
  {
    DiatonicTableWellFormed();
    if key in DiatonicMajor then DiatonicMajor[key] else DiatonicMajor[DefaultKey]
  }

  /** Every value of the numeral table is a scale degree 0..6. */
  lemma RomanTableInRange()
    ensures forall t :: t in RomanToIndex ==> 0 <= RomanToIndex[t] < 7
  {
  }

  /** `ROMAN_TO_INDEX.get(token, 0)`: always an index the diatonic rows have. */
  function DegreeIndex(token: string): (idx: int)
    ensures 0 <= idx < 7
    ensures token !in RomanToIndex ==> idx == 0
  {
    RomanTableInRange();
    if token in RomanToIndex then RomanToIndex[token] else 0
  }

  /** The patterns of a style, falling back to the default style when unknown. */
  function StylePatterns(style: string): (patterns: seq<seq<string>>)
    ensures |patterns| > 0
    ensures forall p :: p in patterns ==> |p| > 0
    ensures style in CommonPatterns ==> patterns == CommonPatterns[style]
  {
    if style in CommonPatterns then CommonPatterns[style] else CommonPatterns[DefaultStyle]
  }

  /** A style the table does not know offers exactly the default style's patterns. */
  lemma UnknownStyleIsPop(style: string)
    requires style !in CommonPatterns
    ensures StylePatterns(style) == StylePatterns(DefaultStyle)
    ensures StylePatterns(style) == CommonPatterns["Pop"]
  {
  }

  /** Semitones above C of a natural note letter, or -1 for a character that is not one. */
  function LetterSemitone(c: char): int {
    match c
    case 'C' => 0
    case 'D' => 2
    case 'E' => 4
    case 'F' => 5
    case 'G' => 7
    case 'A' => 9
    case 'B' => 11
    case _ => -1
  }

  /** A root spelling the note table carries: a letter, a sharpened letter other than E and B,
      or a flattened letter other than C and F (so "E#", "B#", "Cb" and "Fb" are not spelled). */
  predicate Spelled(name: string) {
    && 1 <= |name| <= 2
    && LetterSemitone(name[0]) >= 0
    && (|name| == 2 ==>
          || (name[1] == '#' && name[0] != 'E' && name[0] != 'B')
          || (name[1] == 'b' && name[0] != 'C' && name[0] != 'F'))
  }

  /** Semitones above C of a spelled root: the letter's semitone moved by its accidental. */
  function SpelledSemitone(name: string): int
    requires Spelled(name)
  {
    LetterSemitone(name[0]) + (if |name| == 1 then 0 else if name[1] == '#' then 1 else -1)
  }

  /** The note table holds exactly the spelled roots, each at middle C plus its semitone. */
  lemma {:induction false} NoteTableIsSpelling(name: string)
    ensures name in NoteToMidi <==> Spelled(name)
    ensures name in NoteToMidi ==> NoteToMidi[name] == DefaultRootPitch + SpelledSemitone(name)
  {
    if Spelled(name) {
      if |name| == 1 {
        assert name == [name[0]];
      } else {
        assert name == [name[0], name[1]];
      }
    }
  }

  /** `NOTE_TO_MIDI.get(root, 60) + octave`, where `octave` is already in semitones. */
  function RootPitch(root: string, octave: int): (p: int)
    ensures Spelled(root) ==> p == DefaultRootPitch + SpelledSemitone(root) + octave
    ensures !Spelled(root) ==> p == DefaultRootPitch + octave
  {
    NoteTableIsSpelling(root);
    (if root in NoteToMidi then NoteToMidi[root] else DefaultRootPitch) + octave
  }

  /** A sharp and the flat of the next letter up name the same pitch. */
  lemma EnharmonicRootsAgree(sharp: string, flat: string, octave: int)
    requires Spelled(sharp) && Spelled(flat)
    requires SpelledSemitone(sharp) == SpelledSemitone(flat)
    ensures RootPitch(sharp, octave) == RootPitch(flat, octave)
  {
  }
}

=== FILE: text.dfy ===
/** The Python `str` operations the chord code relies on, over `seq<char>`. */
module Text {

  /** `sub` occurs in `s` starting at position `i`. */
  predicate OccursAt(sub: string, s: string, i: int) {
    0 <= i && i + |sub| <= |s| && s[i..i + |sub|] == sub
  }

  /** Python's `sub in s` for strings: `sub` is a contiguous substring of `s`. */
  function Contains(s: string, sub: string): (b: bool)
    ensures b <==> exists i :: OccursAt(sub, s, i)
    decreases |s|
  {
    if |sub| > |s| then false
    else if s[..|sub|] == sub then (assert OccursAt(sub, s, 0); true)
    else
      var rest := Contains(s[1..], sub);
      ShiftOccurrence(sub, s);
      rest
  }

  /** An occurrence in `s` past position 0 is an occurrence in `s[1..]`, and back. */
  lemma ShiftOccurrence(sub: string, s: string)
    requires |s| > 0
    requires !OccursAt(sub, s, 0)
    ensures (exists i :: OccursAt(sub, s, i)) <==> (exists j :: OccursAt(sub, s[1..], j))
  {
    if i :| OccursAt(sub, s, i) {
      assert i > 0;
      assert s[1..][i - 1..i - 1 + |sub|] == s[i..i + |sub|];
      assert OccursAt(sub, s[1..], i - 1);
    }
    if j :| OccursAt(sub, s[1..], j) {
      assert s[j + 1..j + 1 + |sub|] == s[1..][j..j + |sub|];
      assert OccursAt(sub, s, j + 1);
    }
  }

  /** For a one-character pattern, Python's substring test is plain membership. */
  lemma {:induction false} ContainsSingle(s: string, c: char)
    ensures Contains(s, [c]) <==> c in s
  {
    if c in s {
      var i :| 0 <= i < |s| && s[i] == c;
      assert s[i..i + 1] == [c];
      assert OccursAt([c], s, i);
    }
    if Contains(s, [c]) {
      var i :| OccursAt([c], s, i);
      assert s[i] == s[i..i + 1][0];
    }
  }

  /** `s.replace(c, '')`: every occurrence of `c` removed, the other characters kept in order. */
  function RemoveAll(s: string, c: char): (r: string)
    ensures c !in r
    ensures forall d :: d != c ==> multiset(r)[d] == multiset(s)[d]
    ensures c !in s ==> r == s
  {
    if s == [] then []
    else
      assert s == [s[0]] + s[1..];
      if s[0] == c then RemoveAll(s[1..], c)
      else [s[0]] + RemoveAll(s[1..], c)
  }

  /** Removing characters distributes over concatenation. */
  lemma {:induction false} RemoveAllAppend(s: string, t: string, c: char)
    ensures RemoveAll(s + t, c) == RemoveAll(s, c) + RemoveAll(t, c)
  {
    if s == [] {
      assert s + t == t;
    } else {
      assert (s + t)[0] == s[0];
      assert (s + t)[1..] == s[1..] + t;
      RemoveAllAppend(s[1..], t, c);
    }
  }

  /** Python's `s.endswith(c)` for a one-character suffix. */
  function EndsWith(s: string, c: char): (b: bool)
    ensures b <==> exists t :: s == t + [c]
  {
    if |s| > 0 && s[|s| - 1] == c then
      assert s == s[..|s| - 1] + [c];
      true
    else
      forall t ensures s != t + [c] {
        if |t| + 1 == |s| {
          assert (t + [c])[|t|] == c;
        }
      }
      false
  }
}

=== FILE: voicing.dfy ===
/** Turning a chord name into MIDI pitches: parse, look up the root, stack the quality's
    intervals, rotate for the inversion, clamp into the MIDI range. */
module Voicing {
  import opened Results
  import opened Text
  import opened ChordTables

  /** Lowest and highest MIDI pitch. */
  const MinPitch: int := 0
  const MaxPitch: int := 127

  /** Semitones an inversion step raises the moved note by. */
  const Octave: int := 12

  /** A chord name split into its root spelling and the quality suffix after it. */
  datatype ChordName = ChordName(root: string, quality: string)

  /** A character that makes the root two characters long when it follows the letter. */
  predicate IsAccidental(c: char) {
    c == '#' || c == 'b'
  }

  /** `parse_chord_name`: the root is the first two characters when the second is '#' or 'b',
      otherwise the first one; the rest is the quality. The empty name has no first character. */
  function ParseChordName(name: string): (r: Result<ChordName>)
    ensures r.Err? <==> name == []
    ensures r.Err? ==> r.fault == EmptyChordName
    ensures r.Ok? ==> r.value.root + r.value.quality == name
    ensures r.Ok? ==> 1 <= |r.value.root| <= 2
    ensures r.Ok? ==> (|r.value.root| == 2 <==> |name| >= 2 && IsAccidental(name[1]))
  {
    if |name| >= 2 && IsAccidental(name[1]) then Ok(ChordName(name[..2], name[2..]))
    else if name == [] then Err(EmptyChordName)
    else Ok(ChordName(name[..1], name[1..]))
  }

  /** A root and quality that the parser gives back unchanged once joined: a one-character
      root not followed by an accidental, or a two-character root ending in one. */
  predicate Separable(c: ChordName) {
    || (|c.root| == 1 && (c.quality == [] || !IsAccidental(c.quality[0])))
    || (|c.root| == 2 && IsAccidental(c.root[1]))
  }

  /** Joining a separable root and quality and parsing again gives them back, and every
      parse result is separable. */
  lemma ParseJoinRoundTrip(c: ChordName)
    ensures Separable(c) <==> ParseChordName(c.root + c.quality) == Ok(c)
  {
    var name := c.root + c.quality;
    if Separable(c) {
      if |c.root| == 2 {
        assert name[..2] == c.root && name[2..] == c.quality;
      } else {
        assert name[..1] == c.root && name[1..] == c.quality;
      }
    }
    if ParseChordName(name) == Ok(c) && |c.root| == 1 && c.quality != [] {
      assert name[1] == c.quality[0];
    }
  }

  /** Strictly ascending and spanning less than an octave: a close-position voicing. */
  predicate Close(xs: seq<int>) {
    && (forall i, j :: 0 <= i < j < |xs| ==> xs[i] < xs[j])
    && (|xs| > 0 ==> xs[|xs| - 1] < xs[0] + Octave)
  }

  /** Intervals above the root chosen by the substring tests on the quality, in the order the
      source tests them. "dim" contains 'm', so it lands on the minor triad. */
  function Intervals(quality: string): (iv: seq<int>)
    ensures |iv| == (if '7' in quality then 4 else 3)
    ensures iv[0] == 0
    ensures iv[1] == (if 'm' in quality && !Contains(quality, "maj") && ('7' !in quality || 'M' !in quality) then 3 else 4)
    ensures iv[2] == 7
    ensures |iv| == 4 ==> iv[3] == (if Contains(quality, "maj") || 'M' in quality then 11 else 10)
    ensures Close(iv)
  {
    if 'm' in quality && !Contains(quality, "maj") && '7' !in quality then [0, 3, 7]
    else if '7' in quality then
      if Contains(quality, "maj") || 'M' in quality then [0, 4, 7, 11]
      else if 'm' in quality then [0, 3, 7, 10]
      else [0, 4, 7, 10]
    else [0, 4, 7]
  }

  /** Every pitch moved by `d` semitones. */
  function Transpose(xs: seq<int>, d: int): (r: seq<int>)
    ensures |r| == |xs|
    ensures forall i :: 0 <= i < |xs| ==> r[i] == xs[i] + d
  {
    seq(|xs|, i requires 0 <= i < |xs| => xs[i] + d)
  }

  /** One inversion step: the first note leaves the front and returns an octave higher at the end. */
  function RotateUp(xs: seq<int>): (r: seq<int>)
    requires |xs| > 0
    ensures |r| == |xs|
    ensures r[|r| - 1] == xs[0] + Octave
  {
    xs[1..] + [xs[0] + Octave]
  }

  /** One inversion step keeps every pitch but the first, and trades the first for the same
      pitch an octave up. */
  lemma RotateUpPermutes(xs: seq<int>)
    requires |xs| > 0
    ensures multiset(RotateUp(xs)) == multiset(xs) - multiset{xs[0]} + multiset{xs[0] + Octave}
  {
    assert xs == [xs[0]] + xs[1..];
  }

  /** `inversion` steps of `RotateUp`; a count of zero or less does nothing. */
  function Invert(xs: seq<int>, inversion: int): (r: seq<int>)
    ensures |r| == |xs|
    decreases if inversion < 0 then 0 else inversion
  {
    if inversion <= 0 || xs == [] then xs else Invert(RotateUp(xs), inversion - 1)
  }

  /** `max(0, min(127, p))`. */
  function Clamp(p: int): (c: int)
    ensures MinPitch <= c <= MaxPitch
    ensures MinPitch <= p <= MaxPitch ==> c == p
    ensures p < MinPitch ==> c == MinPitch
    ensures p > MaxPitch ==> c == MaxPitch
  {
    if p < MinPitch then MinPitch else if p > MaxPitch then MaxPitch else p
  }

  /** Every pitch of `xs` lies in the MIDI range. */
  predicate InRange(xs: seq<int>) {
    forall i :: 0 <= i < |xs| ==> MinPitch <= xs[i] <= MaxPitch
  }

  /** Clamp each pitch, keeping the count and the order. */
  function ClampAll(xs: seq<int>): (r: seq<int>)
    ensures |r| == |xs|
    ensures InRange(r)
    ensures forall i :: 0 <= i < |xs| ==> r[i] == Clamp(xs[i])
    ensures r == xs <==> InRange(xs)
    ensures forall i, j :: 0 <= i <= j < |xs| && xs[i] <= xs[j] ==> r[i] <= r[j]
  {
    seq(|xs|, i requires 0 <= i < |xs| => Clamp(xs[i]))
  }

  /** The pitches before clamping: the quality's intervals stacked on the root pitch
      (root table value plus `octave` semitones), then inverted. */
  function Unclamped(c: ChordName, octave: int, inversion: int): (notes: seq<int>)
    ensures |notes| == (if '7' in c.quality then 4 else 3)
    ensures inversion <= 0 ==> notes[0] == RootPitch(c.root, octave)
    ensures inversion == 1 ==> notes[|notes| - 1] == RootPitch(c.root, octave) + Octave
  {
    Invert(Transpose(Intervals(c.quality), RootPitch(c.root, octave)), inversion)
  }

  /** `chord_to_midi_notes(name, octave, inversion)`. `octave` counts semitones, not octaves. */
  function ChordToMidiNotes(name: string, octave: int, inversion: int): (r: Result<seq<int>>)
    ensures r.Err? <==> name == []
    ensures r.Err? ==> r.fault == EmptyChordName
    ensures r.Ok? ==> |r.value| == (if '7' in ParseChordName(name).value.quality then 4 else 3)
    ensures r.Ok? ==> InRange(r.value)
  {
    match ParseChordName(name)
    case Err(f) => Err(f)
    case Ok(c) => Ok(ClampAll(Unclamped(c, octave, inversion)))
  }

  // ---------------------------------------------------------------------------------------
  // Inversion

  /** A count of zero or less leaves the notes where they are. */
  lemma NonPositiveInversionIsIdentity(xs: seq<int>, inversion: int)
    requires inversion <= 0
    ensures Invert(xs, inversion) == xs
  {
  }

  /** Inverting by `a + b` steps is inverting by `a`, then by `b`. */
  lemma {:induction false} InvertAdditive(xs: seq<int>, a: nat, b: nat)
    ensures Invert(xs, a + b) == Invert(Invert(xs, a), b)
    decreases a
  {
    if a > 0 && xs != [] {
      InvertAdditive(RotateUp(xs), a - 1, b);
    }
  }

  /** Each further step takes the current lowest note and puts it on top, an octave up. */
  lemma InvertStep(xs: seq<int>, k: nat)
    requires |xs| > 0
    ensures Invert(xs, k + 1) == RotateUp(Invert(xs, k))
  {
    InvertAdditive(xs, k, 1);
    var p := Invert(xs, k);
    assert Invert(p, 1) == Invert(RotateUp(p), 0);
  }

  /** After `j` steps, with `j` at most the note count, the first `j` notes have moved to the
      top an octave higher and the rest have moved down unchanged. */
  lemma {:induction false} InvertPrefix(xs: seq<int>, j: nat)
    requires j <= |xs|
    ensures Invert(xs, j) == xs[j..] + Transpose(xs[..j], Octave)
  {
    if j == 0 {
      assert xs[..0] == [];
      assert xs[0..] == xs;
      assert Transpose(xs[..0], Octave) == [];
    } else {
      InvertPrefix(xs, j - 1);
      InvertStep(xs, j - 1);
      var p := Invert(xs, j - 1);
      assert p[0] == xs[j - 1];
      assert p[1..] == xs[j..] + Transpose(xs[..j - 1], Octave);
      assert Transpose(xs[..j], Octave) == Transpose(xs[..j - 1], Octave) + [xs[j - 1] + Octave];
    }
  }

  /** Inverting as many times as there are notes raises every note by one octave. */
  lemma InvertFullCycle(xs: seq<int>)
    ensures Invert(xs, |xs|) == Transpose(xs, Octave)
  {
    InvertPrefix(xs, |xs|);
    assert xs[|xs|..] == [];
    assert xs[..|xs|] == xs;
  }

  /** Inversion commutes with transposition. */
  lemma {:induction false} InvertTranspose(xs: seq<int>, d: int, k: int)
    ensures Invert(Transpose(xs, d), k) == Transpose(Invert(xs, k), d)
    decreases if k < 0 then 0 else k
  {
    if k > 0 && xs != [] {
      assert RotateUp(Transpose(xs, d)) == Transpose(RotateUp(xs), d);
      InvertTranspose(RotateUp(xs), d, k - 1);
    }
  }

  /** Inversion counts beyond the note count keep rotating: `|xs|` more steps give the same
      order one octave higher. */
  lemma InvertPeriodic(xs: seq<int>, k: nat)
    ensures Invert(xs, |xs| + k) == Transpose(Invert(xs, k), Octave)
  {
    InvertAdditive(xs, |xs|, k);
    InvertFullCycle(xs);
    InvertTranspose(xs, Octave, k);
  }

  /** One step keeps a close-position voicing close and ascending. */
  lemma RotateUpKeepsClose(xs: seq<int>)
    requires |xs| > 0 && Close(xs)
    ensures Close(RotateUp(xs))
  {
    var r := RotateUp(xs);
    forall i, j | 0 <= i < j < |r| ensures r[i] < r[j] {
      if j < |r| - 1 {
        assert r[i] == xs[i + 1] && r[j] == xs[j + 1];
      } else {
        assert r[i] == xs[i + 1] <= xs[|xs| - 1];
      }
    }
    if |xs| > 1 {
      assert r[0] == xs[1] > xs[0];
    }
  }

  /** Any number of inversion steps keeps a close-position voicing strictly ascending. */
  lemma {:induction false} InvertKeepsClose(xs: seq<int>, k: int)
    requires Close(xs)
    ensures Close(Invert(xs, k))
    decreases if k < 0 then 0 else k
  {
    if k > 0 && xs != [] {
      RotateUpKeepsClose(xs);
      InvertKeepsClose(RotateUp(xs), k - 1);
    }
  }

  // ---------------------------------------------------------------------------------------
  // Quality selection

  /** The third above the root is minor exactly when the quality has an 'm' that is not part
      of "maj" and, for a seventh chord, no 'M' either. The "maj" exclusion only matters when
      an 'm' is present, and `MajContainsM` shows it always is when "maj" is. This restates the
      third in `Intervals`' contract as an if-and-only-if, together with the two values it takes. */
  lemma MinorThird(q: string)
    ensures Intervals(q)[1] == 3 <==>
              'm' in q && !Contains(q, "maj") && ('7' !in q || 'M' !in q)
    ensures Intervals(q)[1] == 3 || Intervals(q)[1] == 4
  {
  }

  /** A seventh is major (11 semitones) exactly when the quality has a '7' and "maj" or 'M'.
      This restates the seventh in `Intervals`' contract as an if-and-only-if. */
  lemma MajorSeventh(q: string)
    ensures |Intervals(q)| == 4 && Intervals(q)[3] == 11 <==>
              '7' in q && (Contains(q, "maj") || 'M' in q)
  {
  }

  /** "maj" always contains 'm'. */
  lemma MajContainsM(q: string)
    ensures Contains(q, "maj") ==> 'm' in q
  {
    if Contains(q, "maj") {
      var i :| OccursAt("maj", q, i);
      assert q[i] == q[i..i + 3][0] == 'm';
    }
  }

  /** "dim" contains 'm' and no '7', so a diminished triad is voiced as a minor triad. */
  lemma DiminishedIsMinorTriad()
    ensures Intervals("dim") == [0, 3, 7]
  {
    assert "dim"[..3][0] == 'd';
    assert !Contains("dim"[1..], "maj");
    assert "dim"[2] == 'm';
  }

  /** "dim7" has a '7' and an 'm' but no "maj" or 'M': it is voiced as a minor seventh. */
  lemma DiminishedSeventhIsMinorSeventh()
    ensures Intervals("dim7") == [0, 3, 7, 10]
  {
    assert "dim7"[..3][0] == 'd';
    assert "dim7"[1..][..3][0] == 'i';
    assert "dim7"[1..][1..] == "m7";
    assert !Contains("m7", "maj");
    assert "dim7"[2] == 'm' && "dim7"[3] == '7';
  }

  /** "maj" without a '7' falls through to the major triad. */
  lemma MajWithoutSeventhIsMajorTriad()
    ensures Intervals("maj") == [0, 4, 7]
  {
    assert "maj"[..3] == "maj";
  }

  /** "M7" is a major seventh. */
  lemma CapitalMSeventhIsMajorSeventh()
    ensures Intervals("M7") == [0, 4, 7, 11]
  {
    assert "M7"[0] == 'M' && "M7"[1] == '7';
  }

  // ---------------------------------------------------------------------------------------
  // Whole voicings

  /** Transposing twice is transposing by the sum. */
  lemma TransposeTwice(xs: seq<int>, d: int, e: int)
    ensures Transpose(Transpose(xs, d), e) == Transpose(xs, d + e)
  {
  }

  /** Shifting `octave` by `d` semitones shifts every unclamped pitch by `d`, whatever the
      inversion. */
  lemma OctaveShiftTransposes(c: ChordName, octave: int, d: int, inversion: int)
    ensures Unclamped(c, octave + d, inversion) == Transpose(Unclamped(c, octave, inversion), d)
  {
    var iv := Intervals(c.quality);
    TransposeTwice(iv, RootPitch(c.root, octave), d);
    InvertTranspose(Transpose(iv, RootPitch(c.root, octave)), d, inversion);
  }

  /** Before clamping, every voicing is strictly ascending and spans less than an octave,
      whatever the inversion. */
  lemma UnclampedIsClose(c: ChordName, octave: int, inversion: int)
    ensures Close(Unclamped(c, octave, inversion))
  {
    var base := Transpose(Intervals(c.quality), RootPitch(c.root, octave));
    assert Close(base);
    InvertKeepsClose(base, inversion);
  }

  /** The returned pitches never descend; when nothing had to be clamped they strictly ascend. */
  lemma VoicingAscends(name: string, octave: int, inversion: int)
    requires name != []
    ensures var notes := ChordToMidiNotes(name, octave, inversion).value;
            forall i, j :: 0 <= i <= j < |notes| ==> notes[i] <= notes[j]
    ensures var c := ParseChordName(name).value;
            InRange(Unclamped(c, octave, inversion)) ==> Close(ChordToMidiNotes(name, octave, inversion).value)
  {
    UnclampedIsClose(ParseChordName(name).value, octave, inversion);
  }

  /** In root position and away from the range edges, the voicing is the root pitch with the
      quality's intervals stacked on it; unknown roots sit on middle C. */
  lemma RootPositionVoicing(name: string, octave: int, inversion: int)
    requires name != [] && inversion <= 0
    requires MinPitch <= RootPitch(ParseChordName(name).value.root, octave)
    requires RootPitch(ParseChordName(name).value.root, octave) + 11 <= MaxPitch
    ensures var c := ParseChordName(name).value;
            ChordToMidiNotes(name, octave, inversion) == Ok(Transpose(Intervals(c.quality), RootPitch(c.root, octave)))
  {
  }

  /** For an inversion from 0 up to the note count, the voicing is the root-position chord's
      notes from `inversion` on, followed by its first `inversion` notes an octave up; the clamp
      applies after the rotation. */
  lemma InvertedVoicing(name: string, octave: int, inversion: int)
    requires name != []
    requires 0 <= inversion <= |Intervals(ParseChordName(name).value.quality)|
    ensures var c := ParseChordName(name).value;
            var base := Transpose(Intervals(c.quality), RootPitch(c.root, octave));
            ChordToMidiNotes(name, octave, inversion) ==
              Ok(ClampAll(base[inversion..] + Transpose(base[..inversion], Octave)))
  {
    var c := ParseChordName(name).value;
    InvertPrefix(Transpose(Intervals(c.quality), RootPitch(c.root, octave)), inversion);
  }

  /** An inversion count at or beyond the note count wraps around: it voices like the count
      minus the note count, one octave higher. With `InvertedVoicing` this fixes the pitches
      for every inversion. */
  lemma WrappedInversion(c: ChordName, octave: int, inversion: int)
    requires inversion >= |Intervals(c.quality)|
    ensures Unclamped(c, octave, inversion) ==
              Unclamped(c, octave + Octave, inversion - |Intervals(c.quality)|)
  {
    var k := inversion - |Intervals(c.quality)|;
    InvertPeriodic(Transpose(Intervals(c.quality), RootPitch(c.root, octave)), k);
    OctaveShiftTransposes(c, octave, Octave, k);
  }

  /** The returned voicing for an inversion at or beyond the note count is the one for the
      count minus the note count with the shift raised an octave, clamp included. */
  lemma WrappedVoicing(name: string, octave: int, inversion: int)
    requires name != []
    requires inversion >= |Intervals(ParseChordName(name).value.quality)|
    ensures ChordToMidiNotes(name, octave, inversion) ==
              ChordToMidiNotes(name, octave + Octave, inversion - |Intervals(ParseChordName(name).value.quality)|)
  {
    WrappedInversion(ParseChordName(name).value, octave, inversion);
  }

  /** A minor in root position: A4, C5, E5. */
  lemma WorkedMinorTriad()
    ensures ChordToMidiNotes("Am", 0, 0) == Ok([69, 72, 76])
  {
    assert ParseChordName("Am").value == ChordName("A", "m");
    assert !Contains("m", "maj");
    assert Intervals("m") == [0, 3, 7];
    assert RootPitch("A", 0) == 69;
    assert Transpose([0, 3, 7], 69) == [69, 72, 76];
    assert ClampAll([69, 72, 76]) == [69, 72, 76];
  }

  /** C major in first inversion: the C moves up an octave above E and G. */
  lemma WorkedFirstInversion()
    ensures ChordToMidiNotes("C", 0, 1) == Ok([64, 67, 72])
  {
    assert ParseChordName("C").value == ChordName("C", "");
    assert Intervals("") == [0, 4, 7];
    assert RootPitch("C", 0) == 60;
    assert Transpose([0, 4, 7], 60) == [60, 64, 67];
    assert RotateUp([60, 64, 67]) == [64, 67, 72];
    assert Invert([60, 64, 67], 1) == Invert([64, 67, 72], 0) == [64, 67, 72];
    assert ClampAll([64, 67, 72]) == [64, 67, 72];
  }

  /** C major in second inversion: C and E move up an octave above G. */
  lemma WorkedSecondInversion()
    ensures ChordToMidiNotes("C", 0, 2) == Ok([67, 72, 76])
  {
    assert ParseChordName("C").value == ChordName("C", "");
    assert Intervals("") == [0, 4, 7];
    assert RootPitch("C", 0) == 60;
    var base := Transpose([0, 4, 7], 60);
    assert base == [60, 64, 67];
    InvertedVoicing("C", 0, 2);
    assert base[2..] + Transpose(base[..2], Octave) == [67, 72, 76];
    assert ClampAll([67, 72, 76]) == [67, 72, 76];
  }

  /** C major six octaves up in first inversion lies wholly above the MIDI range. */
  lemma HighFirstInversionClamps()
    ensures ChordToMidiNotes("C", 72, 1) == Ok([127, 127, 127])
  {
    assert ParseChordName("C").value == ChordName("C", "");
    assert Intervals("") == [0, 4, 7];
    assert RootPitch("C", 72) == 132;
    assert Transpose([0, 4, 7], 132) == [132, 136, 139];
    assert RotateUp([132, 136, 139]) == [136, 139, 144];
    assert Invert([132, 136, 139], 1) == Invert([136, 139, 144], 0) == [136, 139, 144];
    assert ClampAll([136, 139, 144]) == [127, 127, 127];
  }

  /** C major five octaves up in a fourth inversion wraps to a first inversion an octave
      higher, which clamps to 127 three times. */
  lemma WorkedClampedWrap()
    ensures ChordToMidiNotes("C", 60, 4) == Ok([127, 127, 127])
  {
    assert ParseChordName("C").value.quality == "";
    assert |Intervals("")| == 3;
    WrappedVoicing("C", 60, 4);
    HighFirstInversionClamps();
  }

  /** "Cb" is not spelled in the note table, so it is voiced on middle C. */
  lemma FlatCIsMiddleC()
    ensures ChordToMidiNotes("Cb", 0, 0) == Ok([60, 64, 67])
  {
    assert ParseChordName("Cb").value == ChordName("Cb", "");
    assert Intervals("") == [0, 4, 7];
    assert !Spelled("Cb");
    assert RootPitch("Cb", 0) == 60;
    assert Transpose([0, 4, 7], 60) == [60, 64, 67];
    assert ClampAll([60, 64, 67]) == [60, 64, 67];
  }

  /** "E#dim" lands on middle C too, and as a minor triad. */
  lemma SharpEDiminishedIsCMinor()
    ensures ChordToMidiNotes("E#dim", 0, 0) == Ok([60, 63, 67])
  {
    assert ParseChordName("E#dim").value == ChordName("E#", "dim");
    DiminishedIsMinorTriad();
    assert !Spelled("E#");
    assert RootPitch("E#", 0) == 60;
    assert Transpose([0, 3, 7], 60) == [60, 63, 67];
    assert ClampAll([60, 63, 67]) == [60, 63, 67];
  }

  /** "Bdim" is voiced as B minor: B4, D5, F#5 rather than B4, D5, F5. */
  lemma BDiminishedIsBMinor()
    ensures ChordToMidiNotes("Bdim", 0, 0) == Ok([71, 74, 78])
  {
    assert ParseChordName("Bdim").value == ChordName("B", "dim");
    DiminishedIsMinorTriad();
    assert RootPitch("B", 0) == 71;
    assert Transpose([0, 3, 7], 71) == [71, 74, 78];
    assert ClampAll([71, 74, 78]) == [71, 74, 78];
  }
}
